=== FILE: README.md ===
# TextHighlight, modelled in Dafny

This project models the `TextHighlight` component of the WordPress
components package (`packages/components/src/text-highlight/index.tsx`).
The component takes a `text` and a `highlight`, both defaulting to the empty
string. It trims the highlight. When nothing is left, it shows the text
unchanged. Otherwise it builds a global, case-insensitive regular expression
from the escaped highlight. It replaces every match with
`<mark>$&</mark>`, so the matched characters keep the text's own casing,
and hands that markup to `createInterpolateElement`.

The model describes the output as a list of pieces. Each piece is either
shown as it is (`Plain`) or wrapped in a mark (`Marked`). The model proves
what the output is:

- the pieces reassemble the text, and each mark is the trimmed highlight
  up to case;
- no plain piece contains an occurrence;
- matches are taken leftmost first and never overlap;
- the highlight is matched literally, so its regular-expression
  metacharacters stand for themselves;
- a blank highlight, a padded highlight and an absent highlight behave as
  the component promises.

The pieces the replace produces are the recursive function
`Highlighting.Scan`, and one attempt of the escaped `gi` pattern at an index
is `Search.MatchesAt`. Their properties are stated once, through the
declarative description `Highlighting.LeftmostSegmentation` and
`Search.MatchesAtPointwise`. The `replace` loop is modelled as a method over
the pattern's `lastIndex`. It is proved to build exactly the markup of those
pieces.

Modules, one per file:

- `Chars` (`chars.dfy`): the whitespace `trim` strips, and the canonical
  form a case-insensitive match compares.
- `Trimming` (`trim.dfy`): `String.prototype.trim`.
- `Wrappers` (`wrappers.dfy`): `Option`, used for props that may be
  undefined.
- `Search` (`search.dfy`): one execution of the escaped, case-insensitive
  pattern from a given index.
- `Segments` (`segments.dfy`): the pieces, and the markup they stand for.
- `Highlighting` (`highlight.dfy`): the component, a declarative
  description of its output, and the global replace.
- `HighlightExamples` (`highlight_examples.dfy`): three worked inputs.

## Model

| member | source | states |
|---|---|---|
| Chars.Canonicalize | packages/components/src/text-highlight/index.tsx:39-42 | characters compare by a modelled canonical form, the ASCII part of the `i` flag's folding, that holds no lower-case ASCII letter, and that form differs from the character exactly for the letters `a`-`z` |
| Chars.CanonicalIsFixed | packages/components/src/text-highlight/index.tsx:39-42 | a canonical form is its own canonical form |
| Chars.SameCanonical | packages/components/src/text-highlight/index.tsx:39-42 | two characters have the same modelled canonical form exactly when they are equal or are the lower- and upper-case forms of one ASCII letter |
| Chars.EqualsIgnoringCasePointwise | packages/components/src/text-highlight/types.ts:3-4 | two strings are equal ignoring case exactly when they have the same length and agree letter by letter under `Canonicalize` |
| Trimming.Trim | packages/components/src/text-highlight/index.tsx:33 | the input is whitespace, then the result, then whitespace, and the result has no whitespace at either end |
| Trimming.TrimOfPadded | packages/components/src/text-highlight/index.tsx:33 | that decomposition is unique: whitespace around an unpadded core trims to exactly that core |
| Trimming.TrimIgnoresPadding | packages/components/src/text-highlight/index.tsx:33 | whitespace added at either end does not change the trim |
| Trimming.TrimIdempotent | packages/components/src/text-highlight/index.tsx:33 | trimming a trimmed string changes nothing |
| Trimming.TrimEmptyIff | packages/components/src/text-highlight/index.tsx:33-35 | the trimmed highlight is empty exactly when the highlight is all whitespace, which is the case the early return takes |
| Search.MatchesAtPointwise | packages/components/src/text-highlight/index.tsx:39-42 | the escaped pattern matches at an index exactly when every highlight character, metacharacters included, equals the text character there up to the modelled ASCII case fold |
| Search.FindFrom | packages/components/src/text-highlight/index.tsx:44 | a reported match starts at or after `lastIndex` and is a real match |
| Search.FindFromLeftmost | packages/components/src/text-highlight/index.tsx:44 | the reported match is the leftmost one from `lastIndex`, and no report means no index from `lastIndex` on starts a match |
| Search.FindFromIff | packages/components/src/text-highlight/index.tsx:44 | the search reports index `n` exactly when a match starts at `n` and none starts between `lastIndex` and `n` |
| Search.MatchInSlice | packages/components/src/text-highlight/index.tsx:44 | a match inside a piece of the text is a match of the text shifted by the piece's start that ends within the piece, and conversely |
| Search.NoMatchInSlice | packages/components/src/text-highlight/index.tsx:44 | a stretch of text where no index starts a match contains no match of its own |
| Highlighting.PlainText | packages/components/src/text-highlight/index.tsx:35-37 | the text shown unchanged: the pieces reassemble it, none is empty, and none is marked |
| Highlighting.Highlight | packages/components/src/text-highlight/index.tsx:33-44 | the pieces reassemble the text with its own casing; no piece is empty and plain pieces never touch; each mark equals the trimmed highlight up to case; no plain piece contains an occurrence; a blank highlight marks nothing |
| Highlighting.TextHighlight | packages/components/src/text-highlight/index.tsx:31-32 | undefined props read as the empty string: the pieces reassemble the text or nothing, and an undefined highlight marks nothing |
| Highlighting.LeftmostFlatten | packages/components/src/text-highlight/index.tsx:44 | pieces that meet the declarative description reassemble the rest of the text |
| Highlighting.LeftmostWellFormed | packages/components/src/text-highlight/index.tsx:44 | pieces that meet the description are non-empty, and no two plain pieces are adjacent |
| Highlighting.LeftmostPieces | packages/components/src/text-highlight/index.tsx:39-44 | in such pieces every mark equals the highlight up to case, and no plain piece contains a match |
| Highlighting.ScanNoMatch | packages/components/src/text-highlight/index.tsx:44 | once no match is left, the rest of the text is one plain piece, or nothing at the end |
| Highlighting.ScanAtMatch | packages/components/src/text-highlight/index.tsx:44 | at a match, the match is marked with the text's own characters and the scan resumes right after it |
| Highlighting.ScanBeforeMatch | packages/components/src/text-highlight/index.tsx:44 | the text up to the next match is one plain piece, followed by the scan from that match |
| Highlighting.MatchStep | packages/components/src/text-highlight/index.tsx:44 | if the scan after the next match meets the description, so does the scan before it |
| Highlighting.ScanIsLeftmost | packages/components/src/text-highlight/index.tsx:39-44 | the pieces the replace produces meet the declarative description of leftmost, non-overlapping matches |
| Highlighting.LastPlainIsScan | packages/components/src/text-highlight/index.tsx:44 | a single plain piece that meets the description is what the scan gives |
| Highlighting.LeftmostIsScan | packages/components/src/text-highlight/index.tsx:39-44 | any pieces that meet the description are the ones the replace produces, so the description determines the output |
| Highlighting.HighlightCharacterized | packages/components/src/text-highlight/index.tsx:33-44 | for a highlight that is not blank, a list of pieces is the component's output exactly when it meets the declarative description |
| Highlighting.HighlightBlank | packages/components/src/text-highlight/index.tsx:33-37 | an empty or all-whitespace highlight shows the text unchanged |
| Highlighting.HighlightIgnoresPadding | packages/components/src/text-highlight/index.tsx:33 | whitespace around the highlight does not change the output |
| Highlighting.HighlightNoOccurrence | packages/components/src/text-highlight/index.tsx:44 | a highlight that occurs nowhere, or is longer than the text, leaves the text unchanged |
| Highlighting.RenderScanNoMatch | packages/components/src/text-highlight/index.tsx:44 | with no match left, the remaining markup is the rest of the text as it is |
| Highlighting.RenderScanMatch | packages/components/src/text-highlight/index.tsx:44 | with the next match at `m`, the remaining markup is the text before `m`, then the match between `<mark>` and `</mark>`, then the markup after the match |
| Highlighting.ReplaceStep | packages/components/src/text-highlight/index.tsx:44 | one round of the global replace moves `lastIndex` forward and keeps the markup built so far plus the markup still to come equal to the whole |
| Highlighting.ReplaceDone | packages/components/src/text-highlight/index.tsx:44 | the round that finds no match completes the markup with the rest of the text |
| Highlighting.ReplaceWithMarks | packages/components/src/text-highlight/index.tsx:44 | the `lastIndex` loop of `text.replace(regex, '<mark>$&</mark>')` builds exactly the markup of the scanned pieces |
| Highlighting.HighlightMarkup | packages/components/src/text-highlight/index.tsx:33-44 | what the component shows, as one string, is the markup of `Highlight`'s pieces: the unparsed text itself for a blank highlight, the replaced markup otherwise |
| HighlightExamples.OverlappingOccurrences | packages/components/src/text-highlight/index.tsx:44 | "aaa" with "aa" gives one mark "aa" followed by plain "a": matches do not overlap |
| HighlightExamples.MetacharacterIsLiteral | packages/components/src/text-highlight/index.tsx:39-42 | "a.b" with "." marks only the dot: the escaped `.` is not a wildcard |
| HighlightExamples.CasingIsKept | packages/components/src/text-highlight/index.tsx:33-44 | "Go, GO" with "go " marks "Go" and "GO" as they are written |

## Left out

- `createInterpolateElement` and the React elements: the model stops at
  the list of pieces and the markup string. When the highlight is blank,
  the text is passed on as a plain child and never parsed. Otherwise the
  replaced string is parsed, with `mark` as the only tag the conversion
  map names. A `<mark>` already present in the text is then rendered as a
  mark as well. A tag the map does not name, such as `<br>`, ends the
  parsing, so the rest of the string, later marks included, is shown as
  text. The model's `Marked` pieces after such a tag are not what gets
  rendered. `createInterpolateElement` is not part of this model.
- Chars.Canonicalize: folds only `a`-`z`. ECMAScript's non-Unicode `i`
  flag also folds other letters, such as accented Latin and Greek, through
  `toUpperCase`. The Unicode case tables are not modelled.
- Chars.SameCanonical: identifies only the ASCII case pairs, because it
  is stated of `Chars.Canonicalize`. Under the `i` flag `é` also matches
  `É`, which the model does not promise.
- UTF-16: JavaScript strings are sequences of UTF-16 code units, and the
  model's strings are sequences of Unicode scalar values. Surrogate pairs
  and lone surrogates are not modelled.
- `escapeRegExp` and the regular-expression engine are not modelled
  directly. The escaped pattern is modelled by what it matches: the
  highlight's characters taken literally, one for one, up to case. The
  capturing group in the pattern is not modelled, because `$&` does not
  depend on it.
- The special replacement patterns other than `$&` do not occur in the
  component's replacement string and are not modelled.
- A `text` or `highlight` prop of a type other than string, and a `null`
  prop, are not modelled. JavaScript's default values apply only to
  `undefined`, which `Option.None` stands for.
- `TextHighlightProps` (`types.ts`) is modelled by `Highlighting.Props`.
  Besides that type, the component imports only `escapeRegExp` (lodash)
  and `createInterpolateElement` (@wordpress/element), both listed above.

=== FILE: chars.dfy ===
/** Character classes used by `String.prototype.trim` and by a case-insensitive
    (`i` flag) regular expression: which characters `trim` removes, and the
    ASCII part of the `i` flag's case folding, the canonical form two
    characters are compared under in this model (the non-ASCII case pairs
    are not modelled).
 */
module Chars {

  /** The characters `String.prototype.trim` strips: ECMAScript's WhiteSpace
      (tab, vertical tab, form feed, space, no-break space, the byte-order
      mark and the other space separators of category Zs) together with its
      LineTerminator characters (line feed, carriage return, U+2028, U+2029). */
  predicate IsWhitespace(c: char) {
    || c == '\t' || c == '\n' || c == '\U{000B}' || c == '\U{000C}' || c == '\r'
    || c == ' ' || c == '\U{00A0}' || c == '\U{1680}'
    || ('\U{2000}' <= c <= '\U{200A}')
    || c == '\U{2028}' || c == '\U{2029}' || c == '\U{202F}' || c == '\U{205F}'
    || c == '\U{3000}' || c == '\U{FEFF}'
  }

  /** Every character of `s` is one `trim` strips. */
  predicate AllWhitespace(s: string) {
    forall i :: 0 <= i < |s| ==> IsWhitespace(s[i])
  }

  /** The modelled canonical form a case-insensitive match compares: upper
      case for the letters `a`-`z`, the character itself for every other
      character, non-ASCII letters included. Canonical forms hold
      no lower-case ASCII letter, and exactly the letters `a`-`z` change. */
  function Canonicalize(c: char): (d: char)
    ensures !('a' <= d <= 'z')
    ensures d == c <==> !('a' <= c <= 'z')
  {
    if 'a' <= c <= 'z' then (c as int - 32) as char else c
  }

  /** A canonical form is its own canonical form. */
  lemma CanonicalIsFixed(c: char)
    ensures Canonicalize(Canonicalize(c)) == Canonicalize(c)
  {
  }

  /** Two characters have the same modelled canonical form exactly when they
      are the same character or the two cases of one ASCII letter. */
  lemma SameCanonical(a: char, b: char)
    ensures Canonicalize(a) == Canonicalize(b)
            <==> (|| a == b
                  || ('a' <= a <= 'z' && b as int == a as int - 32)
                  || ('a' <= b <= 'z' && a as int == b as int - 32))
  {
  }

  /** `s` with every character replaced by its canonical form. */
  function Fold(s: string): (r: string)
    ensures |r| == |s|
    decreases |s|
  {
    if s == [] then [] else [Canonicalize(s[0])] + Fold(s[1..])
  }

  /** Folding works character by character. */
  lemma {:induction false} FoldAt(s: string, i: nat)
    requires i < |s|
    ensures Fold(s)[i] == Canonicalize(s[i])
    decreases i
  {
    if i > 0 {
      FoldAt(s[1..], i - 1);
    }
  }

  /** Two strings are equal once both are folded: the ASCII part of what the
      `i` flag makes of comparing a stretch of text with a literal pattern. */
  predicate EqualsIgnoringCase(a: string, b: string) {
    Fold(a) == Fold(b)
  }

  /** Case-insensitive equality is equality letter by letter under
      `Canonicalize`, and so relates a string only to strings of its length. */
  lemma EqualsIgnoringCasePointwise(a: string, b: string)
    ensures EqualsIgnoringCase(a, b)
            <==> |a| == |b| && forall i :: 0 <= i < |a| ==> Canonicalize(a[i]) == Canonicalize(b[i])
  {
    forall i | 0 <= i < |a| && i < |b|
      ensures Fold(a)[i] == Canonicalize(a[i]) && Fold(b)[i] == Canonicalize(b[i])
    {
      FoldAt(a, i);
      FoldAt(b, i);
    }
  }
}

=== FILE: highlight.dfy ===
/** The `TextHighlight` component: trim the highlight; when nothing is left,
    show the text as it is; otherwise wrap every case-insensitive, literal,
    non-overlapping occurrence of the trimmed highlight, leftmost first, in a
    `<mark>`, keeping the text's own casing inside the mark.
 */
module Highlighting {
  import opened Chars
  import opened Trimming
  import opened Wrappers
  import opened Search
  import opened Segments

  /** The component's props; an undefined prop reads as the empty string. */
  datatype Props = Props(text: Option<string>, highlight: Option<string>)

  /** The text shown unchanged: one plain piece, or nothing for empty text. */
  function PlainText(text: string): (segs: seq<Segment>)
    ensures Flatten(segs) == text
    ensures WellFormed(segs)
    ensures forall s :: s in segs ==> s.Plain?
  {
    if text == [] then [] else [Plain(text)]
  }

  /** The pieces the global replace produces from index `from` on, with
      `lastIndex` at `from`: the text up to the next match stays plain, the
      match is marked with its own characters, and the search resumes right
      after the match. Its properties are stated once, for every piece list
      that meets `LeftmostSegmentation`, and `ScanIsLeftmost` shows this one
      does. */
  function Scan(text: string, needle: string, from: nat): seq<Segment>
    requires needle != [] && from <= |text|
    decreases |text| - from
  {
    match FindFrom(text, needle, from)
    case None =>
      if from == |text| then [] else [Plain(text[from..])]
    case Some(m) =>
      var marked := [Marked(text[m..m + |needle|])] + Scan(text, needle, m + |needle|);
      if m == from then marked else [Plain(text[from..m])] + marked
  }

  /** A declarative description of the pieces, read left to right from index
      `pos` of `text`: each piece is the next stretch of the text; a marked
      piece is a match of `needle` where it stands; a plain piece covers no
      index where a match starts and is followed by a marked one; the pieces
      end exactly at the end of the text. */
  ghost predicate LeftmostSegmentation(text: string, needle: string, segs: seq<Segment>, pos: nat)
    decreases |segs|
  {
    if segs == [] then pos == |text|
    else
      var piece := segs[0].text;
      && piece != []
      && pos + |piece| <= |text|
      && text[pos..pos + |piece|] == piece
      && (if segs[0].Marked? then MatchesAt(text, needle, pos) && |piece| == |needle|
          else
            && (forall k :: pos <= k < pos + |piece| ==> !MatchesAt(text, needle, k))
            && (|segs| > 1 ==> segs[1].Marked?))
      && LeftmostSegmentation(text, needle, segs[1..], pos + |piece|)
  }

  /** The pieces of a description reassemble the described text. */
  lemma {:induction false} LeftmostFlatten(text: string, needle: string, segs: seq<Segment>, pos: nat)
    requires LeftmostSegmentation(text, needle, segs, pos)
    ensures pos <= |text| && Flatten(segs) == text[pos..]
    decreases |segs|
  {
    if segs != [] {
      var next := pos + |segs[0].text|;
      LeftmostFlatten(text, needle, segs[1..], next);
      assert text[pos..] == text[pos..next] + text[next..];
    }
  }

  /** The pieces of a description are non-empty, and no two plain pieces are
      adjacent. */
  lemma {:induction false} LeftmostWellFormed(text: string, needle: string, segs: seq<Segment>, pos: nat)
    requires LeftmostSegmentation(text, needle, segs, pos)
    ensures WellFormed(segs)
    decreases |segs|
  {
    if segs != [] {
      LeftmostWellFormed(text, needle, segs[1..], pos + |segs[0].text|);
      forall i | 0 < i < |segs|
        ensures segs[i] == segs[1..][i - 1]
      {
      }
    }
  }

  /** Every marked piece of a description is the needle up to case, and no
      plain piece contains a match of the needle. */
  lemma {:induction false} LeftmostPieces(text: string, needle: string, segs: seq<Segment>, pos: nat)
    requires needle != []
    requires LeftmostSegmentation(text, needle, segs, pos)
    ensures forall s :: s in segs && s.Marked? ==> EqualsIgnoringCase(s.text, needle)
    ensures forall s :: s in segs && s.Plain? ==> !ContainsMatch(s.text, needle)
    decreases |segs|
  {
    if segs != [] {
      var next := pos + |segs[0].text|;
      LeftmostPieces(text, needle, segs[1..], next);
      if segs[0].Plain? {
        NoMatchInSlice(text, needle, pos, next);
      }
      assert segs == [segs[0]] + segs[1..];
    }
  }

  /** What `TextHighlight` shows for `text` and `highlight`: the pieces
      reassemble the text, marked pieces are the trimmed highlight up to
      case, plain pieces hold no occurrence of it, and a blank highlight
      marks nothing. */
  function Highlight(text: string, highlight: string): (segs: seq<Segment>)
    ensures Flatten(segs) == text
    ensures WellFormed(segs)
    ensures forall s :: s in segs && s.Marked? ==> EqualsIgnoringCase(s.text, Trim(highlight))
    ensures Trim(highlight) != [] ==>
              forall s :: s in segs && s.Plain? ==> !ContainsMatch(s.text, Trim(highlight))
    ensures AllWhitespace(highlight) ==> forall s :: s in segs ==> s.Plain?
  {
    var needle := Trim(highlight);
    TrimEmptyIff(highlight);
    if needle == [] then PlainText(text)
    else
      ScanIsLeftmost(text, needle, 0);
      LeftmostFlatten(text, needle, Scan(text, needle, 0), 0);
      LeftmostWellFormed(text, needle, Scan(text, needle, 0), 0);
      LeftmostPieces(text, needle, Scan(text, needle, 0), 0);
      assert text[0..] == text;
      Scan(text, needle, 0)
  }

  /** The component on its props, with `text` and `highlight` defaulting to
      the empty string. */
  function TextHighlight(props: Props): (segs: seq<Segment>)
    ensures Flatten(segs) == props.text.GetOr([])
    ensures props.highlight.None? ==> forall s :: s in segs ==> s.Plain?
    ensures props.text.None? ==> segs == []
  {
    Highlight(props.text.GetOr([]), props.highlight.GetOr([]))
  }

  /** The scan from `from` when no match is left: the rest of the text as
      one plain piece, or nothing at the end of the text. */
  lemma ScanNoMatch(text: string, needle: string, from: nat)
    requires needle != [] && from <= |text|
    requires forall k :: from <= k ==> !MatchesAt(text, needle, k)
    ensures Scan(text, needle, from) == if from == |text| then [] else [Plain(text[from..])]
  {
    FindFromLeftmost(text, needle, from);
  }

  /** The scan from a match: the match marked, then the scan after it. */
  lemma ScanAtMatch(text: string, needle: string, pos: nat)
    requires needle != [] && MatchesAt(text, needle, pos)
    ensures Scan(text, needle, pos)
            == [Marked(text[pos..pos + |needle|])] + Scan(text, needle, pos + |needle|)
  {
  }

  /** The scan from `pos` when the next match starts at `next`: the text in
      between as one plain piece, then the scan from the match. */
  lemma ScanBeforeMatch(text: string, needle: string, pos: nat, next: nat)
    requires needle != [] && pos < next
    requires MatchesAt(text, needle, next)
    requires forall k :: pos <= k < next ==> !MatchesAt(text, needle, k)
    ensures Scan(text, needle, pos) == [Plain(text[pos..next])] + Scan(text, needle, next)
  {
    FindFromReaches(text, needle, pos, next);
    assert Scan(text, needle, pos)
           == [Plain(text[pos..next])]
              + ([Marked(text[next..next + |needle|])] + Scan(text, needle, next + |needle|));
    ScanAtMatch(text, needle, next);
  }

  /** A match at `m` marked, followed by pieces that describe the text after
      it, describes the text from `m`. */
  lemma MarkedStep(text: string, needle: string, m: nat, rest: seq<Segment>)
    requires needle != [] && MatchesAt(text, needle, m)
    requires LeftmostSegmentation(text, needle, rest, m + |needle|)
    ensures LeftmostSegmentation(text, needle, [Marked(text[m..m + |needle|])] + rest, m)
  {
    assert ([Marked(text[m..m + |needle|])] + rest)[1..] == rest;
  }

  /** A stretch without match starts kept plain, followed by pieces that
      describe the text from a match, describes the text from its start. */
  lemma PlainStep(text: string, needle: string, pos: nat, next: nat, rest: seq<Segment>)
    requires pos < next
    requires forall k :: pos <= k < next ==> !MatchesAt(text, needle, k)
    requires rest != [] && rest[0].Marked?
    requires LeftmostSegmentation(text, needle, rest, next)
    ensures LeftmostSegmentation(text, needle, [Plain(text[pos..next])] + rest, pos)
  {
    assert ([Plain(text[pos..next])] + rest)[1..] == rest;
  }

  /** The rest of the text kept plain describes it when no match starts in it. */
  lemma FinalPlainStep(text: string, needle: string, pos: nat)
    requires pos < |text|
    requires forall k :: pos <= k < |text| ==> !MatchesAt(text, needle, k)
    ensures LeftmostSegmentation(text, needle, [Plain(text[pos..])], pos)
  {
    assert [Plain(text[pos..])][1..] == [];
  }

  /** When the scan after the next match meets the declarative description,
      so does the scan from `from`. */
  lemma MatchStep(text: string, needle: string, from: nat, m: nat)
    requires needle != [] && from <= |text|
    requires FindFrom(text, needle, from) == Some(m)
    requires m + |needle| <= |text|
    requires LeftmostSegmentation(text, needle, Scan(text, needle, m + |needle|), m + |needle|)
    ensures LeftmostSegmentation(text, needle, Scan(text, needle, from), from)
  {
    FindFromLeftmost(text, needle, from);
    ScanAtMatch(text, needle, m);
    MarkedStep(text, needle, m, Scan(text, needle, m + |needle|));
    if m != from {
      ScanBeforeMatch(text, needle, from, m);
      PlainStep(text, needle, from, m, Scan(text, needle, m));
    }
  }

  /** The scan meets the declarative description. */
  lemma {:induction false} ScanIsLeftmost(text: string, needle: string, from: nat)
    requires needle != [] && from <= |text|
    ensures LeftmostSegmentation(text, needle, Scan(text, needle, from), from)
    decreases |text| - from
  {
    FindFromLeftmost(text, needle, from);
    match FindFrom(text, needle, from)
    case None =>
      ScanNoMatch(text, needle, from);
      if from < |text| {
        FinalPlainStep(text, needle, from);
      }
    case Some(m) =>
      ScanIsLeftmost(text, needle, m + |needle|);
      MatchStep(text, needle, from, m);
  }

  /** A single plain piece that meets the declarative description is the
      scan: it runs to the end of the text and no match starts in it. */
  lemma LastPlainIsScan(text: string, needle: string, segs: seq<Segment>, pos: nat)
    requires needle != [] && pos <= |text|
    requires |segs| == 1 && segs[0].Plain?
    requires LeftmostSegmentation(text, needle, segs, pos)
    ensures segs == Scan(text, needle, pos)
  {
    var next := pos + |segs[0].text|;
    assert segs[1..] == [] && next == |text|;
    assert forall k :: pos <= k ==> !MatchesAt(text, needle, k);
    ScanNoMatch(text, needle, pos);
    assert segs[0] == Plain(text[pos..]);
  }

  /** Only the scan meets the declarative description: the pieces are
      determined by the text and the needle. */
  lemma {:induction false} LeftmostIsScan(text: string, needle: string, segs: seq<Segment>, pos: nat)
    requires needle != [] && pos <= |text|
    requires LeftmostSegmentation(text, needle, segs, pos)
    ensures segs == Scan(text, needle, pos)
    decreases |segs|
  {
    if segs == [] {
      ScanNoMatch(text, needle, pos);
    } else {
      var next := pos + |segs[0].text|;
      LeftmostIsScan(text, needle, segs[1..], next);
      assert segs == [segs[0]] + segs[1..];
      if segs[0].Marked? {
        ScanAtMatch(text, needle, pos);
      } else if |segs| == 1 {
        LastPlainIsScan(text, needle, segs, pos);
      } else {
        assert segs[1..][0].Marked?;
        ScanBeforeMatch(text, needle, pos, next);
      }
    }
  }

  /** For a highlight that is not blank, the pieces `TextHighlight` shows
      are exactly the ones that meet the declarative description. */
  lemma HighlightCharacterized(text: string, highlight: string, segs: seq<Segment>)
    requires Trim(highlight) != []
    ensures segs == Highlight(text, highlight)
            <==> LeftmostSegmentation(text, Trim(highlight), segs, 0)
  {
    ScanIsLeftmost(text, Trim(highlight), 0);
    if LeftmostSegmentation(text, Trim(highlight), segs, 0) {
      LeftmostIsScan(text, Trim(highlight), segs, 0);
    }
  }

  /** A highlight that is empty or all whitespace shows the text unchanged. */
  lemma HighlightBlank(text: string, highlight: string)
    requires AllWhitespace(highlight)
    ensures Highlight(text, highlight) == PlainText(text)
  {
    TrimEmptyIff(highlight);
  }

  /** Whitespace around the highlight makes no difference. */
  lemma HighlightIgnoresPadding(text: string, p: string, highlight: string, q: string)
    requires AllWhitespace(p) && AllWhitespace(q)
    ensures Highlight(text, p + highlight + q) == Highlight(text, highlight)
  {
    TrimIgnoresPadding(p, highlight, q);
  }

  /** A highlight that occurs nowhere in the text, in particular one longer
      than the text, leaves the text unchanged. */
  lemma HighlightNoOccurrence(text: string, highlight: string)
    requires !ContainsMatch(text, Trim(highlight)) || |Trim(highlight)| > |text|
    ensures Highlight(text, highlight) == PlainText(text)
  {
    var needle := Trim(highlight);
    assert MatchesAt(text, [], 0) by { assert text[0..0] == []; }
    assert needle != [];
    assert forall k :: 0 <= k ==> !MatchesAt(text, needle, k);
    ScanNoMatch(text, needle, 0);
    assert text[0..] == text;
  }

  /** The markup of the scan from `from` when no match is left: the rest of
      the text as it is. */
  lemma RenderScanNoMatch(text: string, needle: string, from: nat)
    requires needle != [] && from <= |text|
    requires FindFrom(text, needle, from).None?
    ensures Render(Scan(text, needle, from)) == text[from..]
  {
    FindFromLeftmost(text, needle, from);
    ScanNoMatch(text, needle, from);
    if from < |text| {
      RenderCons(Plain(text[from..]), []);
    }
  }

  /** The markup of the scan from `from` when the next match is at `m`: the
      text before it, the match between the tags, then the markup of the
      scan after it. */
  lemma RenderScanMatch(text: string, needle: string, from: nat, m: nat)
    requires needle != [] && from <= |text|
    requires FindFrom(text, needle, from) == Some(m)
    ensures m + |needle| <= |text|
    ensures Render(Scan(text, needle, from))
            == text[from..m] + (OpenTag + text[m..m + |needle|] + CloseTag
               + Render(Scan(text, needle, m + |needle|)))
  {
    FindFromLeftmost(text, needle, from);
    var matched := text[m..m + |needle|];
    var rest := Scan(text, needle, m + |needle|);
    ScanAtMatch(text, needle, m);
    RenderCons(Marked(matched), rest);
    if m != from {
      ScanBeforeMatch(text, needle, from, m);
      RenderCons(Plain(text[from..m]), Scan(text, needle, m));
    } else {
      assert text[from..m] == [];
    }
  }

  /** One round of the global replace keeps the markup built so far plus the
      markup of the scan still to come equal to the markup of the whole scan. */
  lemma ReplaceStep(text: string, needle: string, out: string, lastIndex: nat, m: nat,
                    whole: string)
    requires needle != [] && lastIndex <= |text|
    requires FindFrom(text, needle, lastIndex) == Some(m)
    requires out + Render(Scan(text, needle, lastIndex)) == whole
    ensures lastIndex < m + |needle| <= |text|
    ensures out + text[lastIndex..m] + (OpenTag + text[m..m + |needle|] + CloseTag)
              + Render(Scan(text, needle, m + |needle|))
            == whole
  {
    RenderScanMatch(text, needle, lastIndex, m);
    ConcatAssoc(out, text[lastIndex..m], OpenTag + text[m..m + |needle|] + CloseTag,
                Render(Scan(text, needle, m + |needle|)));
  }

  /** The round of the global replace that finds no match completes the
      markup of the whole scan with the rest of the text. */
  lemma ReplaceDone(text: string, needle: string, out: string, lastIndex: nat, whole: string)
    requires needle != [] && lastIndex <= |text|
    requires FindFrom(text, needle, lastIndex).None?
    requires out + Render(Scan(text, needle, lastIndex)) == whole
    ensures out + text[lastIndex..] == whole
  {
    RenderScanNoMatch(text, needle, lastIndex);
  }

  /** `text.replace(regex, '<mark>$&</mark>')` for the non-empty pattern
      `needle`, as the global replace computes it: execute the pattern from
      `lastIndex`, copy the text before the match, substitute the match (`$&`)
      between the tags, continue after the match, and copy what is left once
      nothing more matches. The string it builds is the markup of the pieces
      the recursive `Scan` describes. */
  method ReplaceWithMarks(text: string, needle: string) returns (out: string)
    requires needle != []
    ensures out == Render(Scan(text, needle, 0))
  {
    ghost var whole := Render(Scan(text, needle, 0));
    out := [];
    var lastIndex: nat := 0;
    while true
      invariant lastIndex <= |text|
      invariant out + Render(Scan(text, needle, lastIndex)) == whole
      decreases |text| - lastIndex
    {
      var found := FindFrom(text, needle, lastIndex);
      if found.None? {
        ReplaceDone(text, needle, out, lastIndex, whole);
        out := out + text[lastIndex..];
        return;
      }
      var m := found.value;
      ReplaceStep(text, needle, out, lastIndex, m, whole);
      out, lastIndex := out + text[lastIndex..m] + (OpenTag + text[m..m + |needle|] + CloseTag), m + |needle|;
    }
  }

  /** What the component shows, as one string: the text itself when the
      trimmed highlight is empty (passed on as a plain child, never parsed),
      otherwise the markup string `replace` builds, with every match of the
      trimmed highlight wrapped in the tags. Either way it is the markup of
      the pieces `Highlight` returns. */
  method HighlightMarkup(text: string, highlight: string) returns (markup: string)
    ensures markup == Render(Highlight(text, highlight))
    ensures AllWhitespace(highlight) ==> markup == text
  {
    var trimmed := Trim(highlight);
    TrimEmptyIff(highlight);
    if trimmed == [] {
      markup := text;
      if text != [] {
        RenderCons(Plain(text), []);
      }
    } else {
      markup := ReplaceWithMarks(text, trimmed);
    }
  }
}

=== FILE: highlight_examples.dfy ===
/** Worked instances of the component's behaviour on small inputs. */
module HighlightExamples {
  import opened Chars
  import opened Trimming
  import opened Search
  import opened Segments
  import opened Highlighting

  /** Where "aa" starts a match in "aaa". */
  lemma OverlapMatches()
    ensures MatchesAt("aaa", "aa", 0) && !MatchesAt("aaa", "aa", 2)
  {
    MatchesAtPointwise("aaa", "aa", 0);
  }

  /** The pieces for "aaa" and "aa", built one step at a time. */
  lemma OverlapDescription()
    ensures LeftmostSegmentation("aaa", "aa", [Marked("aa"), Plain("a")], 0)
  {
    var text, needle := "aaa", "aa";
    OverlapMatches();
    FinalPlainStep(text, needle, 2);
    MarkedStep(text, needle, 0, [Plain(text[2..])]);
    assert text[0..2] == "aa" && text[2..] == "a";
    assert [Marked(text[0..2])] + [Plain(text[2..])] == [Marked("aa"), Plain("a")];
  }

  /** Occurrences do not overlap: after the match at 0 the search resumes
      at 2, where the rest of the text is too short for another. */
  lemma OverlappingOccurrences()
    ensures Highlight("aaa", "aa") == [Marked("aa"), Plain("a")]
  {
    TrimOfPadded([], "aa", []);
    assert [] + "aa" + [] == "aa";
    OverlapDescription();
    HighlightCharacterized("aaa", "aa", [Marked("aa"), Plain("a")]);
  }

  /** Where "." starts a match in "a.b": only at the dot. */
  lemma DotMatches()
    ensures !MatchesAt("a.b", ".", 0) && MatchesAt("a.b", ".", 1) && !MatchesAt("a.b", ".", 2)
  {
    MatchesAtPointwise("a.b", ".", 0);
    MatchesAtPointwise("a.b", ".", 1);
    MatchesAtPointwise("a.b", ".", 2);
  }

  /** The pieces for "a.b" and ".", built one step at a time. */
  lemma DotDescription()
    ensures LeftmostSegmentation("a.b", ".", [Plain("a"), Marked("."), Plain("b")], 0)
  {
    var text, needle := "a.b", ".";
    DotMatches();
    FinalPlainStep(text, needle, 2);
    MarkedStep(text, needle, 1, [Plain(text[2..])]);
    var rest := [Marked(text[1..2])] + [Plain(text[2..])];
    PlainStep(text, needle, 0, 1, rest);
    assert text[0..1] == "a" && text[1..2] == "." && text[2..] == "b";
    assert [Plain(text[0..1])] + rest == [Plain("a"), Marked("."), Plain("b")];
  }

  /** A regular-expression metacharacter in the highlight stands for itself:
      `.` marks the dot and not the letter before it. */
  lemma MetacharacterIsLiteral()
    ensures Highlight("a.b", ".") == [Plain("a"), Marked("."), Plain("b")]
  {
    TrimOfPadded([], ".", []);
    assert [] + "." + [] == ".";
    DotDescription();
    HighlightCharacterized("a.b", ".", [Plain("a"), Marked("."), Plain("b")]);
  }

  /** Where "go" starts a match in "Go, GO", case aside. */
  lemma CasingMatches()
    ensures MatchesAt("Go, GO", "go", 0) && MatchesAt("Go, GO", "go", 4)
    ensures !MatchesAt("Go, GO", "go", 2) && !MatchesAt("Go, GO", "go", 3)
  {
    MatchesAtPointwise("Go, GO", "go", 0);
    MatchesAtPointwise("Go, GO", "go", 2);
    MatchesAtPointwise("Go, GO", "go", 3);
    MatchesAtPointwise("Go, GO", "go", 4);
  }

  /** The pieces for "Go, GO" and "go", built one step at a time. */
  lemma CasingDescription()
    ensures LeftmostSegmentation("Go, GO", "go", [Marked("Go"), Plain(", "), Marked("GO")], 0)
  {
    var text, needle := "Go, GO", "go";
    CasingMatches();
    MarkedStep(text, needle, 4, []);
    var last := [Marked(text[4..6])] + [];
    PlainStep(text, needle, 2, 4, last);
    var middle := [Plain(text[2..4])] + last;
    MarkedStep(text, needle, 0, middle);
    assert text[0..2] == "Go" && text[2..4] == ", " && text[4..6] == "GO";
    assert [Marked(text[0..2])] + middle == [Marked("Go"), Plain(", "), Marked("GO")];
  }

  /** The highlight is trimmed and compared without regard to case, and each
      marked piece keeps the casing the text has. */
  lemma CasingIsKept()
    ensures Highlight("Go, GO", "go ") == [Marked("Go"), Plain(", "), Marked("GO")]
  {
    TrimOfPadded([], "go", " ");
    assert [] + "go" + " " == "go ";
    CasingDescription();
    HighlightCharacterized("Go, GO", "go ", [Marked("Go"), Plain(", "), Marked("GO")]);
  }
}

=== FILE: search.dfy ===
/** Literal, case-insensitive search: what the regular expression built from
    the escaped highlight with the `gi` flags finds. Escaping leaves no
    metacharacter its special meaning, so in this model the pattern matches
    exactly the strings that equal the highlight letter by letter under
    `Canonicalize`, the ASCII part of the `i` flag's case folding.
 */
module Search {
  import opened Chars
  import opened Wrappers

  /** The pattern for `needle` matches `text` starting at index `i`. */
  predicate MatchesAt(text: string, needle: string, i: int) {
    0 <= i && i + |needle| <= |text| && EqualsIgnoringCase(text[i..i + |needle|], needle)
  }

  /** A match is character-by-character equality under `Canonicalize`: every
      character of the needle, metacharacters included, matches only itself
      or, for a letter, the same letter in the other case. */
  lemma MatchesAtPointwise(text: string, needle: string, i: int)
    ensures MatchesAt(text, needle, i)
            <==> (0 <= i && i + |needle| <= |text|
                  && forall j :: 0 <= j < |needle| ==> Canonicalize(text[i + j]) == Canonicalize(needle[j]))
  {
    if 0 <= i && i + |needle| <= |text| {
      var piece := text[i..i + |needle|];
      EqualsIgnoringCasePointwise(piece, needle);
      assert forall j :: 0 <= j < |needle| ==> piece[j] == text[i + j];
    }
  }

  /** Some index of `s` starts a match of `needle`. */
  predicate ContainsMatch(s: string, needle: string) {
    exists k :: 0 <= k <= |s| && MatchesAt(s, needle, k)
  }

  /** One execution of the global pattern with `lastIndex` at `from`: the
      index at or after `from` where the next match starts, if any. */
  function FindFrom(text: string, needle: string, from: nat): (r: Option<nat>)
    requires from <= |text|
    ensures r.Some? ==> from <= r.value && MatchesAt(text, needle, r.value)
    decreases |text| - from
  {
    if MatchesAt(text, needle, from) then Some(from)
    else if from == |text| then None
    else FindFrom(text, needle, from + 1)
  }

  /** The match `FindFrom` reports is the leftmost one at or after `from`,
      and it reports none only when no index from `from` on starts a match. */
  lemma {:induction false} FindFromLeftmost(text: string, needle: string, from: nat)
    requires from <= |text|
    ensures FindFrom(text, needle, from).Some? ==>
              forall k :: from <= k < FindFrom(text, needle, from).value ==> !MatchesAt(text, needle, k)
    ensures FindFrom(text, needle, from).None? ==>
              forall k :: from <= k ==> !MatchesAt(text, needle, k)
    decreases |text| - from
  {
    if !MatchesAt(text, needle, from) && from < |text| {
      FindFromLeftmost(text, needle, from + 1);
    }
  }

  /** A match at `next` with none between `from` and `next` is what
      `FindFrom` reports. */
  lemma {:induction false} FindFromReaches(text: string, needle: string, from: nat, next: nat)
    requires from <= next && MatchesAt(text, needle, next)
    requires forall k :: from <= k < next ==> !MatchesAt(text, needle, k)
    ensures FindFrom(text, needle, from) == Some(next)
    decreases next - from
  {
    if from < next {
      FindFromReaches(text, needle, from + 1, next);
    }
  }

  /** `FindFrom` reports `next` exactly when a match starts at `next` and
      none starts between `from` and `next`. */
  lemma FindFromIff(text: string, needle: string, from: nat, next: nat)
    requires from <= |text|
    ensures FindFrom(text, needle, from) == Some(next)
            <==> (from <= next && MatchesAt(text, needle, next)
                  && forall k :: from <= k < next ==> !MatchesAt(text, needle, k))
  {
    FindFromLeftmost(text, needle, from);
    if from <= next && MatchesAt(text, needle, next)
       && forall k :: from <= k < next ==> !MatchesAt(text, needle, k) {
      FindFromReaches(text, needle, from, next);
    }
  }

  /** A match inside the piece `text[lo..hi]` is a match of `text` itself,
      shifted by `lo`, that ends no later than `hi`; and conversely. */
  lemma MatchInSlice(text: string, needle: string, lo: nat, hi: nat, k: int)
    requires lo <= hi <= |text|
    ensures MatchesAt(text[lo..hi], needle, k)
            <==> (0 <= k && lo + k + |needle| <= hi && MatchesAt(text, needle, lo + k))
  {
    if 0 <= k && lo + k + |needle| <= hi {
      var inner, outer := text[lo..hi][k..k + |needle|], text[lo + k..lo + k + |needle|];
      forall j | 0 <= j < |needle|
        ensures inner[j] == outer[j]
      {
        assert inner[j] == text[lo + k + j];
      }
      assert inner == outer;
    }
  }

  /** A piece of `text` in which no index starts a match of `text` (among
      those that fit inside the piece) contains no match of its own. */
  lemma NoMatchInSlice(text: string, needle: string, lo: nat, hi: nat)
    requires lo <= hi <= |text|
    requires forall k :: lo <= k < hi ==> !MatchesAt(text, needle, k)
    requires needle != []
    ensures !ContainsMatch(text[lo..hi], needle)
  {
    forall k | 0 <= k <= hi - lo
      ensures !MatchesAt(text[lo..hi], needle, k)
    {
      MatchInSlice(text, needle, lo, hi, k);
    }
  }
}

=== FILE: segments.dfy ===
/** The output of the highlighter before it becomes React elements: the text
    cut into pieces, each either left as it is or wrapped in a `<mark>`. */
module Segments {

  datatype Segment = Plain(text: string) | Marked(text: string)

  /** No piece is empty and no two plain pieces are adjacent: every stretch
      of unmarked text is one piece. */
  predicate WellFormed(segs: seq<Segment>) {
    && (forall i :: 0 <= i < |segs| ==> segs[i].text != [])
    && (forall i :: 0 <= i < |segs| - 1 ==> segs[i].Plain? ==> segs[i + 1].Marked?)
  }

  /** The characters the pieces show, in order, with the markup dropped. */
  function Flatten(segs: seq<Segment>): string
    decreases |segs|
  {
    if segs == [] then [] else segs[0].text + Flatten(segs[1..])
  }

  /** The tags the replacement string `'<mark>$&</mark>'` puts around a match. */
  const OpenTag: string := "<mark>"
  const CloseTag: string := "</mark>"

  /** The markup of one piece: a marked piece between the tags, a plain
      piece as it is. */
  function Markup(seg: Segment): string {
    match seg
    case Plain(s) => s
    case Marked(s) => OpenTag + s + CloseTag
  }

  /** The markup string the pieces stand for. */
  function Render(segs: seq<Segment>): string
    decreases |segs|
  {
    if segs == [] then [] else Markup(segs[0]) + Render(segs[1..])
  }

  /** The markup of a piece in front of others. */
  lemma RenderCons(seg: Segment, rest: seq<Segment>)
    ensures Render([seg] + rest) == Markup(seg) + Render(rest)
  {
    assert ([seg] + rest)[1..] == rest;
  }

  /** Re-bracketing a four-part concatenation. */
  lemma ConcatAssoc(a: string, b: string, c: string, d: string)
    ensures a + (b + (c + d)) == a + b + c + d
  {
  }
}

=== FILE: trim.dfy ===
/** `String.prototype.trim`: the string without its leading and trailing
    whitespace, as `Chars.IsWhitespace` defines whitespace. */
module Trimming {
  import opened Chars

  /** `s` has no whitespace at either end (the empty string qualifies). */
  predicate Unpadded(s: string) {
    s == [] || (!IsWhitespace(s[0]) && !IsWhitespace(s[|s| - 1]))
  }

  /** The first index at or after `from` that does not hold whitespace, or
      the length of `s` when there is none. */
  function ContentStart(s: string, from: nat): (i: nat)
    requires from <= |s|
    ensures from <= i <= |s|
    ensures forall k :: from <= k < i ==> IsWhitespace(s[k])
    ensures i == |s| || !IsWhitespace(s[i])
    decreases |s| - from
  {
    if from == |s| || !IsWhitespace(s[from]) then from else ContentStart(s, from + 1)
  }

  /** Scanning back from `hi`, but not below `lo`: the index just after the
      last character that is not whitespace, or `lo` when there is none. */
  function ContentEnd(s: string, lo: nat, hi: nat): (j: nat)
    requires lo <= hi <= |s|
    ensures lo <= j <= hi
    ensures forall k :: j <= k < hi ==> IsWhitespace(s[k])
    ensures j == lo || !IsWhitespace(s[j - 1])
    decreases hi - lo
  {
    if hi == lo || !IsWhitespace(s[hi - 1]) then hi else ContentEnd(s, lo, hi - 1)
  }

  /** `s.trim()`: `s` is whitespace, then the result, then whitespace, and
      the result has no whitespace at either end. */
  function Trim(s: string): (r: string)
    ensures exists p, q :: AllWhitespace(p) && AllWhitespace(q) && s == p + r + q
    ensures Unpadded(r)
  {
    var i := ContentStart(s, 0);
    var j := ContentEnd(s, i, |s|);
    assert s == s[..i] + s[i..j] + s[j..];
    assert AllWhitespace(s[..i]);
    assert AllWhitespace(s[j..]);
    s[i..j]
  }

  /** `ContentStart` stops at the first index that does not hold whitespace:
      such an index is unique, so this follows from `ContentStart`'s ensures. */
  lemma ContentStartIs(s: string, from: nat, i: nat)
    requires from <= i <= |s|
    requires forall k :: from <= k < i ==> IsWhitespace(s[k])
    requires i == |s| || !IsWhitespace(s[i])
    ensures ContentStart(s, from) == i
  {
  }

  /** `ContentEnd` stops just after the last index that does not hold
      whitespace: such an index is unique, so this follows from
      `ContentEnd`'s ensures. */
  lemma ContentEndIs(s: string, lo: nat, hi: nat, j: nat)
    requires lo <= j <= hi <= |s|
    requires forall k :: j <= k < hi ==> IsWhitespace(s[k])
    requires j == lo || !IsWhitespace(s[j - 1])
    ensures ContentEnd(s, lo, hi) == j
  {
  }

  /** The decomposition `Trim` finds is the only one: whenever `s` is
      whitespace, then an unpadded core, then whitespace, `Trim` returns that
      core. */
  lemma TrimOfPadded(p: string, m: string, q: string)
    requires AllWhitespace(p) && AllWhitespace(q)
    requires Unpadded(m)
    ensures Trim(p + m + q) == m
  {
    var s := p + m + q;
    var i, j := |p|, |p| + |m|;
    if m == [] {
      forall k | 0 <= k < |s|
        ensures IsWhitespace(s[k])
      {
        if k < |p| { assert s[k] == p[k]; } else { assert s[k] == q[k - |p|]; }
      }
      ContentStartIs(s, 0, |s|);
      ContentEndIs(s, |s|, |s|, |s|);
    } else {
      assert forall k :: 0 <= k < i ==> s[k] == p[k];
      assert s[i] == m[0];
      ContentStartIs(s, 0, i);
      assert forall k :: j <= k < |s| ==> s[k] == q[k - j];
      assert s[j - 1] == m[|m| - 1];
      ContentEndIs(s, i, |s|, j);
      assert s[i..j] == m;
    }
  }

  /** Re-bracketing a five-part concatenation. */
  lemma Regroup(p: string, front: string, r: string, back: string, q: string)
    ensures p + (front + r + back) + q == (p + front) + r + (back + q)
  {
  }

  /** Two runs of whitespace make a run of whitespace. */
  lemma AllWhitespaceAppend(a: string, b: string)
    requires AllWhitespace(a) && AllWhitespace(b)
    ensures AllWhitespace(a + b)
  {
  }

  /** Whitespace added at either end of a string does not change its trim. */
  lemma TrimIgnoresPadding(p: string, s: string, q: string)
    requires AllWhitespace(p) && AllWhitespace(q)
    ensures Trim(p + s + q) == Trim(s)
  {
    var r := Trim(s);
    var front, back :| AllWhitespace(front) && AllWhitespace(back) && s == front + r + back;
    Regroup(p, front, r, back, q);
    AllWhitespaceAppend(p, front);
    AllWhitespaceAppend(back, q);
    TrimOfPadded(p + front, r, back + q);
  }

  /** Trimming twice is trimming once. */
  lemma TrimIdempotent(s: string)
    ensures Trim(Trim(s)) == Trim(s)
  {
    var r := Trim(s);
    assert [] + r + [] == r;
    TrimOfPadded([], r, []);
  }

  /** `s.trim()` is empty exactly when `s` is all whitespace. */
  lemma TrimEmptyIff(s: string)
    ensures Trim(s) == [] <==> AllWhitespace(s)
  {
    var p, q :| AllWhitespace(p) && AllWhitespace(q) && s == p + Trim(s) + q;
    if Trim(s) == [] {
      assert s == p + q;
      AllWhitespaceAppend(p, q);
    }
    if AllWhitespace(s) {
      assert [] + [] + s == s;
      TrimOfPadded([], [], s);
    }
  }
}

=== FILE: wrappers.dfy ===
/** An optional value: a component prop that may be left undefined, or a
    search that may find nothing. */
module Wrappers {

  datatype Option<+T> = None | Some(value: T) {

    /** The value, or `default` when there is none (a destructuring default). */
    function GetOr(default: T): T {
      match this
      case Some(v) => v
      case None => default
    }
  }
}
